=== FILE: README.md ===
# xl — a Dafny model of the row-oriented spreadsheet tool

`xl` converts between spreadsheet sheets and separator-joined text lines.
`xl -in book.xlsx` prints the rows of a sheet to standard output, one line per
row, with the fields joined by the `-s` separator. `xl -out book.xlsx` reads
lines from standard input, splits them on the separator, and writes them as
rows into a sheet. `-S` chooses the sheet by name. `-b col,row` moves the
anchor: export skips the rows and columns before it, and import writes from it.

This project models the logic of `main.go` without its I/O:

- `results.dfy` — module `Results`: the tool's errors (`InvalidOption`, `NotAlphabet`,
  `AtoiSyntax`, `NoSuchSheet`) and the `Option`/`Result` wrappers.
- `go_strings.dfy` — module `GoStrings`: the standard-library functions the tool
  relies on. These are `strings.Split`, `strings.Join`, `strings.ToUpper` and
  `strconv.Atoi`. `strconv.Itoa` is added as the inverse used in round-trip
  statements.
- `cell_pos.dfy` — module `CellPosition`: `CellPos`, the column-label codec
  `colIdxToI` and the `-b` parser `optToCellPos`. `ColumnLabel`, the usual
  spreadsheet column name of an index, is the inverse of the letter path.
- `transpose.dfy` — module `Transpose`: the grid logic of `excelToStdout`
  (export) and `StdinToExcel` (import). A sheet is `seq<seq<string>>`, holding
  the rendered text of its cells.
- `workbook.dfy` — module `Workbook`: choosing the sheet, and the two
  directions on whole workbooks (a sequence of named sheets).

`optToCellPos` does not check that the row is positive: row `0` gives row
index -1, and a numeric column label such as `-2` gives a negative column
(see `CellPosition.OptToCellPosRowZero`).

## Model

| member | source | states |
|---|---|---|
| `CellPosition.ColIdxToI` | main.go:85-99 | a label is only ever rejected with `NotAlphabet`, naming a character outside A–Z; its value on every label is pinned down by `ColIdxToINumeric`, `ColIdxToILetters`, `ColIdxToICaseInsensitive` (which carries lower- and mixed-case labels over to their upper-case form), `ColIdxToIRejects` and `ColIdxToIColumnLabel` |
| `CellPosition.ColIdxToINumeric` | main.go:86-90 | a label that parses as a (signed) decimal integer is returned as that integer, not decremented |
| `CellPosition.ColIdxToILetters` | main.go:91-98 | an upper-case letter label gives the sum of 26^(n-1-i)·(letter value) over its letters, minus one |
| `CellPosition.ColIdxToICaseInsensitive` | main.go:86 | a label, its upper-case form and its lower-case form give the same result |
| `CellPosition.ColIdxToIRejects` | main.go:87-95 | a label is rejected exactly when it is not a decimal integer and holds a non-letter; the error names the first such character after upper-casing |
| `CellPosition.ColIdxToINonNegative` | main.go:91-98 | every non-empty letter label, of either case, gives an index of at least 0 |
| `CellPosition.ColIdxToIEmpty` | main.go:91-98 | the empty label gives -1 |
| `CellPosition.ColIdxToIColumnLabel` | main.go:85-99 | reading back the spreadsheet label of column n gives n, so every index ≥ 0 has a letter label |
| `CellPosition.ColIdxToIInjective` | main.go:91-98 | distinct non-empty upper-case labels give distinct indices |
| `CellPosition.ColIdxToILettersSameColumn` | main.go:86-98 | two non-empty letter labels give the same column if and only if they agree up to case |
| `CellPosition.ColIdxToILetterExamples` | main.go:91-98 | "A" is 0, "Z" is 25, "AA" is 26, "AZ" is 51 |
| `CellPosition.ColIdxToILowerExample` | main.go:86 | "az" is 51, the same as "AZ" |
| `CellPosition.ColIdxToINumericExample` | main.go:87-90 | "5" is column 5 |
| `CellPosition.ColIdxToIMixedExample` | main.go:92-95 | "A1" is rejected, naming '1' |
| `CellPosition.FirstNonLetter` | main.go:92-95 | yields nothing exactly when every character is A–Z; otherwise it yields the first character outside A–Z |
| `CellPosition.LabelOfValue` | main.go:91-98 | every non-empty upper-case label is the column label of its own index (the letter numeral is bijective) |
| `CellPosition.LettersValue` | main.go:91-98 | the sum of 26^(n-1-i)·(letter value) over an upper-case label (stated by `ColIdxToILetters`, `LettersValueSnoc` and `ColumnLabelValue`) |
| `CellPosition.LettersValueSnoc` | main.go:96 | appending a letter multiplies the numeral by 26 and adds the letter's value |
| `CellPosition.ColumnLabelValue` | main.go:96 | the label of column n has numeral value n + 1 |
| `CellPosition.LettersNotDecimal` | main.go:86-91 | a label of letters only is never a decimal numeral, so `Atoi` fails and the letter path is taken |
| `CellPosition.OptToCellPos` | main.go:65-82 | "" is cell {0,0}; only a non-empty option is rejected, and an `InvalidOption` error quotes the whole option; the values are pinned down by `OptToCellPosShape`, `OptToCellPosParts` and `OptToCellPosRoundTrip` |
| `CellPosition.OptToCellPosShape` | main.go:66-72 | "" gives {0,0}; a non-empty option with a comma count other than one is `InvalidOption` |
| `CellPosition.OptToCellPosParts` | main.go:69-81 | with one comma the result is {colIdxToI(before), Atoi(after) - 1}; the first failing parse's error is passed on |
| `CellPosition.OptToCellPosRoundTrip` | main.go:65-82 | writing a position as "label,row" with a one-based row and parsing it gives the position back |
| `CellPosition.OptToCellPosExample` | main.go:73-81 | "B,3" gives {1,2} |
| `CellPosition.OptToCellPosRowZero` | main.go:77-81 | "A,0" gives {0,-1}: the row is not checked for positivity |
| `CellPosition.OptToCellPosNoComma` | main.go:69-72 | "B" is `InvalidOption` |
| `GoStrings.Split` | main.go:178 | `strings.Split` with a non-empty separator: the text cut at every occurrence, left to right (stated by `IndexFrom`, `JoinSplit`, `SplitPiecesAvoidSep` and the `SplitChar` lemmas) |
| `GoStrings.Join` | main.go:135 | `strings.Join`: the fields with the separator between each two (stated by `JoinSplit`) |
| `GoStrings.ToUpper` | main.go:86 | `strings.ToUpper` on ASCII text: a-z mapped to A-Z, every other character kept (stated by `UpperCaseFacts` and `AtoiToUpper`) |
| `GoStrings.Atoi` | main.go:77 | `strconv.Atoi`: accepts exactly [+-]?[0-9]+ and returns its value, otherwise a syntax error naming the text (stated by `AtoiItoa`, `AtoiToUpper` and `LettersNotDecimal`) |
| `GoStrings.IndexFrom` | main.go:178 | the result is the leftmost occurrence of the separator at or after the start, or -1 when there is none |
| `GoStrings.JoinSplit` | main.go:178 | joining the split fields of a line with the same non-empty separator gives the line back |
| `GoStrings.SplitPiecesAvoidSep` | main.go:178 | no field produced by splitting contains the separator |
| `GoStrings.SplitCharCount` | main.go:69-70 | splitting on one character gives one more part than the character's occurrences |
| `GoStrings.SplitCharAt` | main.go:69 | splitting `a,b` on ',' where `a` has no comma gives `a` followed by the parts of `b` |
| `GoStrings.SplitCharAbsent` | main.go:69 | a text without the separator splits into itself |
| `GoStrings.AtoiItoa` | main.go:77 | `Atoi` accepts every decimal numeral `Itoa` writes and returns its value |
| `GoStrings.AtoiToUpper` | main.go:86-87 | upper-casing does not change whether a label is a decimal integer, nor the integer |
| `GoStrings.UpperCaseFacts` | main.go:86 | upper-casing is idempotent, undoes lower-casing and fixes every other character |
| `Transpose.LeadingFields` | main.go:119-131 | the fields of a row are its longest prefix of non-empty cells: all non-empty, and the next cell, if any, is "" |
| `Transpose.RowFields` | main.go:118-131 | the fields export takes from one row: the cells before the base column are skipped, then cells are taken up to the first empty one (stated by `LeadingFields` and `Export`) |
| `Transpose.ExportRows` | main.go:114-137 | one joined line per retained row, in order, and output ends at the first row without fields |
| `Transpose.Export` | main.go:114-137 | line k is the separator-join of the fields of sheet row max(0, base.row) + k, none of these rows is field-less, the row right after the last line has no fields, and there are at most max(0, rows - base.row) lines |
| `Transpose.ExportStopsAtEmptyRow` | main.go:132-134 | rows after the first retained row without fields contribute nothing, whatever they hold |
| `Transpose.ExportRowsPrefix` | main.go:132-134 | cutting the rows just before a row without fields leaves the exported lines unchanged |
| `Transpose.ExportExample` | main.go:114-137 | rows ["a","b"], ["c","d"], [], ["e"] at {0,0} print exactly "a b" and "c d" |
| `Transpose.SetCell` | main.go:187-192 | setting cell j pads the row with "" cells up to j, sets cell j and changes no other cell |
| `Transpose.WriteFields` | main.go:179-192 | one line's fields written cell by cell from the base column (stated by `WriteFieldsContents`) |
| `Transpose.WriteFieldsContents` | main.go:179-192 | writing a line's fields puts field i at column base + i, keeps the other cells, pads new cells with "", and grows the row only to the last field |
| `Transpose.WriteRows` | main.go:176-194 | given field lists that are all non-empty, line k is written into row cursor + k (a row appended with `AddRow` when the cursor is at the end), the sheet ends up max(rows, cursor + lines) long, and rows no line touches are unchanged |
| `Transpose.RowAt` | main.go:181-185 | the row at the cursor, or a new empty row when the cursor is past the end (stated by `WriteRows` and `WriteRowsRow`) |
| `Transpose.WriteRowsRow` | main.go:179-193 | the row written for line k holds its fields from the base column on, keeps its other cells, and is as long as the longer of its old length and the last field's column |
| `Transpose.SplitLines` | main.go:177-178 | one field list per input line, none of them empty (`strings.Split` always returns at least one field) |
| `Transpose.SplitLinesAt` | main.go:178 | entry k is line k split on the separator |
| `Transpose.Padded` | main.go:171-174 | the sheet with base.row empty rows appended to its end, its own rows unchanged (also stated by `ImportFrame`) |
| `Transpose.Import` | main.go:171-194 | the sheet after import is max(rows + base.row, base.row + lines) long; where the fields go and what stays is pinned down by `ImportPlacesFields`, `ImportFrame`, `ImportKeepsCells` and `ImportFresh` |
| `Transpose.ImportPlacesFields` | main.go:171-194 | the sheet is max(rows + base.row, base.row + lines) long; cell (base.row + k, base.column + i) holds field i of line k split on the separator; row base.row + k grows only as far as its last field |
| `Transpose.ImportFrame` | main.go:171-175 | base.row empty rows are appended to the end of the sheet; rows no line is written into keep their old contents, and appended ones stay empty |
| `Transpose.ImportKeepsCells` | main.go:186-192 | in a row that import writes, a cell outside the written fields keeps its text, or is "" when import had to create it |
| `Transpose.WriteRowsFresh` | main.go:176-194 | writing into empty rows gives, for each line, `column` empty cells followed by its fields |
| `Transpose.ImportFresh` | main.go:146-194 | import into a new, empty sheet gives base.row empty rows, then one row per line: base.column empty cells followed by the line's fields |
| `Transpose.ImportExample` | main.go:171-194 | lines "x y" and "z w" at {0,0} make rows ["x","y"] and ["z","w"] |
| `Transpose.LeadingFieldsAllNonEmpty` | main.go:127-131 | a row without empty cells is its own list of fields |
| `Transpose.FreshRowFields` | main.go:119-131 | export reads back exactly the fields written into a fresh row from the base column, when none is empty |
| `Transpose.ExportFreshRows` | main.go:114-137 | rows that are fresh rows of split lines export, joined with the same separator, to those lines |
| `Transpose.ImportExportRoundTrip` | main.go:114-194 | importing lines into an empty sheet and exporting with the same separator and a non-negative base gives the lines back, when no line has an empty field |
| `Workbook.FindSheet` | main.go:109 | the index found is the first sheet with the name; none is found exactly when no sheet has it |
| `Workbook.SelectSheet` | main.go:107-113 | "" selects the first sheet; a name selects a sheet of that name, and `NoSuchSheet` is returned exactly when no sheet has it |
| `Workbook.ExcelToStdout` | main.go:101-137 | export without a sheet name always succeeds; it fails only with `NoSuchSheet` naming the sheet, and only when no sheet has that name; the printed lines are pinned down by `ExcelToStdoutSheetChoice` and `WorkbookRoundTrip` |
| `Workbook.ExcelToStdoutSheetChoice` | main.go:107-137 | export reads the first sheet when no name is given; with a name it succeeds exactly when a sheet has that name, reads that sheet, and otherwise fails with `NoSuchSheet` |
| `Workbook.StdinToExcel` | main.go:146-201 | without a file the result is one sheet named "sheet1"; the only error is `NoSuchSheet` for a name no sheet of the existing workbook has; the workbook keeps its number of sheets; the rest is pinned down by `StdinToExcelFrame` and `WorkbookRoundTrip` |
| `Workbook.StdinToExcelFrame` | main.go:156-194 | import into an existing workbook changes only the selected sheet's rows; an unknown sheet name is an error |
| `Workbook.WorkbookRoundTrip` | main.go:146-194 | lines written to a new file (sheet "sheet1") and read back from the first sheet or from "sheet1" come back unchanged, when no line has an empty field |

## Left out

- Opening, checking and saving files (`xlsx.OpenFile`, `isExist`, `xlsx.NewFile`, `AddSheet`, `f.Save`), and reading stdin and writing stdout. This is I/O and library code that is not part of this model. Export receives the workbook the file held and returns the printed lines. Import receives the workbook, or `None` for a missing file, and the lines already read, and returns the workbook to be saved.
- The xlsx library's own behaviour is assumed: `AddRow` and `AddCell` append, a new cell's text is "", and `cell.String()` of a cell set with `cell.Value = v` is `v`. Number and date formatting of cells read from existing files is not modelled: a cell is its rendered text.
- `bufio.Scanner` details: the line-length limit, the stripped "\r" and the scanner error check. Input lines arrive already split.
- Flag parsing and usage output in `main`. When both or neither of `-in`/`-out` is given, the source prints usage and continues; that path is not modelled.
- The error message texts: errors are constructors carrying the offending value.
- The check of a stale `err` inside the export cell loop: it can never fire, since `err` is nil there.
- `CellPosition.ColIdxToI`: requires an ASCII label. `strings.ToUpper` is modelled on ASCII only. Go maps a few non-ASCII letters onto A–Z (U+017F to 'S', U+0131 to 'I'), and for other non-ASCII input the byte length used for the weights differs from the character index.
- `CellPosition.OptToCellPos`: requires an ASCII option, for the same reason. The row is an unbounded integer, so `row - 1` does not wrap when the row is -2^63: Go gives 2^63 − 1 there, and export then prints nothing, while the model's row -2^63 − 1 skips no row.
- `CellPosition.ColIdxToILetters`: the sum uses exact integer powers. The source uses `math.Pow` on float64 and a 64-bit `int`. Every weight up to 26^13 = 2^13·13^13 is an exact float64, so the source computes exactly as long as the value fits in 64 bits. That covers every label of up to 13 letters and 14-letter labels up to `CRPXNLSKVLJFHG` (index 2^63 − 2). Beyond that the sum wraps around. From 15 letters on, `int(math.Pow(26, 14))` converts a float outside the range of `int`, which gives an implementation-specific value.
- `GoStrings.Atoi`: accepts every numeral of the form [+-]?[0-9]+ with unbounded value. `strconv.Atoi` also reports a range error outside 64 bits.
- `Transpose.Import`: requires a non-empty separator and a non-negative base. For a negative base the source indexes a row or cell at a negative index and panics as soon as one line is read; with no input nothing is written and the sheet is saved with only its padding rows (none for a negative row), a case the requires also excludes. For an empty separator, `strings.Split` splits into characters and returns no field for an empty line.
- `Workbook.ExcelToStdout`: requires at least one sheet, since the source reads `f.Sheets[0]` unconditionally and panics on an empty workbook. `Workbook.StdinToExcel` requires the same of an existing workbook.
- `Workbook.SelectSheet`: with duplicate sheet names the model picks the first. xlsx files cannot hold two sheets with one name, and which one the library's name map keeps is not part of this model.

=== FILE: cell_pos.dfy ===
/** The base position of `xl`: the `-b col,row` option and the column-label
codec behind it (`CellPos`, `optToCellPos` and `colIdxToI` in main.go).

A column label is either a decimal number, taken as a zero-based column
index as it stands, or a bijective base-26 numeral in the letters A-Z (either
case), where A stands for 1 and Z for 26, reduced by one to make it
zero-based. `ColumnLabel` is the inverse of the letter path and is used to
state that the codec is a bijection between non-empty letter labels and
column indices.
 */
module CellPosition {
  import opened Results
  import opened GoStrings

  /** A zero-based (column, row) anchor. The source does not check the
      signs: a numeric token "-2" or a row "0" yield negative fields. */
  datatype CellPos = CellPos(column: int, row: int)

  // ---------------------------------------------------------------------
  // Letter labels
  // ---------------------------------------------------------------------

  predicate AllUpper(s: string)
  {
    forall i :: 0 <= i < |s| ==> IsUpperLetter(s[i])
  }

  /** Whether every character of `s` is an ASCII letter of either case. */
  predicate AllLetters(s: string)
  {
    forall i :: 0 <= i < |s| ==> IsUpperLetter(s[i]) || IsLowerLetter(s[i])
  }

  /** The digit value of a letter: A is 1, Z is 26. */
  function LetterValue(c: char): int
    requires IsUpperLetter(c)
  {
    c as int - 'A' as int + 1
  }

  function Pow26(k: nat): nat
  {
    if k == 0 then 1 else 26 * Pow26(k - 1)
  }

  /** The bijective base-26 value of an upper-case label, summed the way the
      source sums it: letter i weighs 26 to the power |s| - 1 - i. */
  function LettersValue(s: string): nat
    requires AllUpper(s)
    decreases |s|
  {
    if |s| == 0 then 0 else Pow26(|s| - 1) * LetterValue(s[0]) + LettersValue(s[1..])
  }

  /** The first character of `s` that is not an upper-case letter, if any:
      the character the source names in its error. */
  function FirstNonLetter(s: string): (r: Option<char>)
    ensures r == None <==> AllUpper(s)
    ensures r.Some? ==> exists i :: 0 <= i < |s| && s[i] == r.value && !IsUpperLetter(s[i]) && AllUpper(s[..i])
    decreases |s|
  {
    if s == [] then None
    else if !IsUpperLetter(s[0]) then Some(s[0])
    else
      var r := FirstNonLetter(s[1..]);
      if r.Some? then
        ghost var i :| 0 <= i < |s[1..]| && s[1..][i] == r.value && !IsUpperLetter(s[1..][i]) && AllUpper(s[1..][..i]);
        assert s[..i + 1] == [s[0]] + s[1..][..i];
        r
      else r
  }

  /** `colIdxToI(label)`: a decimal label is returned as it stands; any other
      label is upper-cased and read as a base-26 letter numeral, minus one. */
  function ColIdxToI(token: string): (r: Result<int>)
    requires IsAscii(token)
    ensures r.Err? ==> r.error.NotAlphabet? && !IsUpperLetter(r.error.ch)
  {
    var c := ToUpper(token);
    AtoiToUpper(token);
    match Atoi(c)
    case Ok(d) => Ok(d)
    case Err(_) =>
      match FirstNonLetter(c)
      case Some(ch) => Err(NotAlphabet(ch))
      case None => Ok(LettersValue(c) - 1)
  }

  /** The column label of zero-based column `n` as spreadsheets print it:
      0 is "A", 25 is "Z", 26 is "AA". */
  function ColumnLabel(n: nat): (r: string)
    ensures |r| > 0 && AllUpper(r)
    decreases n
  {
    if n < 26 then [('A' as int + n) as char]
    else ColumnLabel(n / 26 - 1) + [('A' as int + n % 26) as char]
  }

  // ---------------------------------------------------------------------
  // Facts about the letter numeral
  // ---------------------------------------------------------------------

  /** Appending a letter shifts the numeral one base-26 place. */
  lemma {:induction false} LettersValueSnoc(s: string, c: char)
    requires AllUpper(s) && IsUpperLetter(c)
    ensures AllUpper(s + [c])
    ensures LettersValue(s + [c]) == 26 * LettersValue(s) + LetterValue(c)
    decreases |s|
  {
    if s == [] {
      assert [] + [c] == [c];
      assert [c][1..] == [];
    } else {
      var t, u := s + [c], s[1..];
      var p, q, v := Pow26(|s| - 1), Pow26(|s|), LetterValue(s[0]);
      assert t[0] == s[0] && t[1..] == u + [c] && |t| - 1 == |s|;
      assert LettersValue(t) == q * v + LettersValue(u + [c]);
      LettersValueSnoc(u, c);
      assert q == 26 * p;
      ScaleProduct(q, p, v);
    }
  }

  /** Multiplying a weight that is 26 times another scales the product by 26. */
  lemma ScaleProduct(q: nat, p: nat, v: nat)
    requires q == 26 * p
    ensures q * v == 26 * (p * v)
  {
  }

  /** A non-empty letter numeral is at least 1, so its index is at least 0. */
  lemma {:induction false} LettersValuePositive(s: string)
    requires AllUpper(s) && |s| > 0
    ensures LettersValue(s) >= 1
  {
    var p, v := Pow26(|s| - 1), LetterValue(s[0]);
    PowPositive(|s| - 1);
    assert p * v >= p by {
      assert p * v == p * (v - 1) + p;
    }
  }

  lemma {:induction false} PowPositive(k: nat)
    ensures Pow26(k) >= 1
    decreases k
  {
    if k > 0 {
      PowPositive(k - 1);
    }
  }

  /** `ColumnLabel(n)` has numeral value n + 1. */
  lemma {:induction false} ColumnLabelValue(n: nat)
    ensures LettersValue(ColumnLabel(n)) == n + 1
    decreases n
  {
    var r := ColumnLabel(n);
    if n < 26 {
      assert r[1..] == [];
    } else {
      var m := n / 26 - 1;
      var c := ('A' as int + n % 26) as char;
      ColumnLabelValue(m);
      LettersValueSnoc(ColumnLabel(m), c);
    }
  }

  /** Every non-empty upper-case label is the label of its own index. */
  lemma {:induction false} LabelOfValue(s: string)
    requires AllUpper(s) && |s| > 0
    ensures LettersValue(s) >= 1
    ensures ColumnLabel(LettersValue(s) - 1) == s
    decreases |s|
  {
    LettersValuePositive(s);
    if |s| == 1 {
      assert s[1..] == [];
      assert LettersValue(s) == LetterValue(s[0]);
    } else {
      var p := s[..|s| - 1];
      var c := s[|s| - 1];
      assert s == p + [c];
      LettersValueSnoc(p, c);
      LettersValuePositive(p);
      LabelOfValue(p);
      var n := LettersValue(s) - 1;
      assert n == 26 * LettersValue(p) + (LetterValue(c) - 1);
      assert n / 26 - 1 == LettersValue(p) - 1;
      assert n % 26 == LetterValue(c) - 1;
      assert n >= 26;
    }
  }

  // ---------------------------------------------------------------------
  // The column-label codec
  // ---------------------------------------------------------------------

  /** A label made of upper-case letters is never a decimal numeral. */
  lemma LettersNotDecimal(s: string)
    requires AllUpper(s)
    ensures !IsDecimal(s)
  {
    if |Unsigned(s)| > 0 {
      assert HasSign(s) ==> IsUpperLetter(s[0]);
      assert !IsDigit(Unsigned(s)[0]) by {
        assert Unsigned(s)[0] == s[0] || Unsigned(s)[0] == s[1];
      }
    }
  }

  /** A label that parses as a decimal integer (optionally signed) is
      returned as that integer, not decremented. */
  lemma ColIdxToINumeric(token: string)
    requires IsAscii(token) && IsDecimal(token)
    ensures ColIdxToI(token) == Atoi(token)
    ensures ColIdxToI(token).Ok?
  {
    AtoiToUpper(token);
  }

  /** The letter path: an upper-case label is read as the positional sum
      of its letter values, minus one. */
  lemma ColIdxToILetters(s: string)
    requires AllUpper(s)
    ensures IsAscii(s)
    ensures ColIdxToI(s) == Ok(LettersValue(s) - 1)
  {
    UpperCaseFacts(s);
    LettersNotDecimal(s);
    AtoiToUpper(s);
  }

  /** Upper- and lower-case spellings of a label give the same result. */
  lemma ColIdxToICaseInsensitive(token: string)
    requires IsAscii(token)
    ensures IsAscii(ToUpper(token)) && IsAscii(ToLower(token))
    ensures ColIdxToI(ToUpper(token)) == ColIdxToI(token)
    ensures ColIdxToI(ToLower(token)) == ColIdxToI(token)
  {
    UpperCaseFacts(token);
    assert IsAscii(ToLower(token)) by {
      forall i | 0 <= i < |token|
        ensures ToLower(token)[i] as int < 128
      {
        assert token[i] as int < 128;
      }
    }
  }

  /** A label is rejected exactly when it is not a decimal numeral and
      holds some character that is not a letter; the error names the first
      such character after upper-casing. */
  lemma ColIdxToIRejects(token: string)
    requires IsAscii(token)
    ensures ColIdxToI(token).Err? <==> !IsDecimal(token) && !AllLetters(token)
    ensures ColIdxToI(token).Err? ==>
      exists i :: 0 <= i < |token| && ColIdxToI(token).error == NotAlphabet(UpperChar(token[i]))
        && !IsUpperLetter(UpperChar(token[i])) && AllLetters(token[..i])
  {
    var c := ToUpper(token);
    AtoiToUpper(token);
    assert AllUpper(c) <==> AllLetters(token) by {
      assert forall i :: 0 <= i < |token| ==> (IsUpperLetter(c[i]) <==> IsUpperLetter(token[i]) || IsLowerLetter(token[i]));
    }
    if !IsDecimal(token) {
      var f := FirstNonLetter(c);
      if f.Some? {
        var i :| 0 <= i < |c| && c[i] == f.value && !IsUpperLetter(c[i]) && AllUpper(c[..i]);
        assert AllLetters(token[..i]) by {
          forall j | 0 <= j < i
            ensures IsUpperLetter(token[j]) || IsLowerLetter(token[j])
          {
            assert c[..i][j] == c[j];
          }
        }
      }
    }
  }

  /** Every non-empty letter label denotes a column index of at least 0. */
  lemma ColIdxToINonNegative(token: string)
    requires IsAscii(token) && AllLetters(token) && |token| > 0
    ensures ColIdxToI(token).Ok? && ColIdxToI(token).value >= 0
  {
    var c := ToUpper(token);
    assert AllUpper(c);
    ColIdxToICaseInsensitive(token);
    ColIdxToILetters(c);
    LettersValuePositive(c);
  }

  /** The empty label is read as an empty letter numeral: index -1. */
  lemma ColIdxToIEmpty()
    ensures ColIdxToI("") == Ok(-1)
  {
    ColIdxToILetters("");
  }

  /** The codec inverts `ColumnLabel`: reading back the label of column n
      gives n. */
  lemma ColIdxToIColumnLabel(n: nat)
    ensures IsAscii(ColumnLabel(n))
    ensures ColIdxToI(ColumnLabel(n)) == Ok(n)
  {
    ColIdxToILetters(ColumnLabel(n));
    ColumnLabelValue(n);
  }

  /** Distinct non-empty upper-case labels denote distinct columns. */
  lemma ColIdxToIInjective(s: string, t: string)
    requires AllUpper(s) && AllUpper(t) && |s| > 0 && |t| > 0
    requires s != t
    ensures IsAscii(s) && IsAscii(t)
    ensures ColIdxToI(s).Ok? && ColIdxToI(t).Ok?
    ensures ColIdxToI(s).value != ColIdxToI(t).value
  {
    ColIdxToILetters(s);
    ColIdxToILetters(t);
    if LettersValue(s) == LettersValue(t) {
      LabelOfValue(s);
      LabelOfValue(t);
    }
  }

  /** Upper-casing a label of letters gives a label of upper-case letters
      of the same length. */
  lemma UpperOfLetters(s: string)
    requires AllLetters(s)
    ensures |ToUpper(s)| == |s| && AllUpper(ToUpper(s))
  {
    forall i | 0 <= i < |s|
      ensures IsUpperLetter(ToUpper(s)[i])
    {
      assert ToUpper(s)[i] == UpperChar(s[i]);
    }
  }

  /** Two non-empty letter labels denote the same column exactly when they
      are the same label up to case. */
  lemma ColIdxToILettersSameColumn(s: string, t: string)
    requires IsAscii(s) && IsAscii(t)
    requires AllLetters(s) && AllLetters(t) && |s| > 0 && |t| > 0
    ensures ColIdxToI(s) == ColIdxToI(t) <==> ToUpper(s) == ToUpper(t)
  {
    var us, ut := ToUpper(s), ToUpper(t);
    ColIdxToICaseInsensitive(s);
    ColIdxToICaseInsensitive(t);
    UpperOfLetters(s);
    UpperOfLetters(t);
    ColIdxToILetters(us);
    ColIdxToILetters(ut);
    if us != ut {
      ColIdxToIInjective(us, ut);
    }
  }

  /** Known values of the codec: "A" is 0, "Z" is 25, "AA" is 26, "AZ" is 51. */
  lemma ColIdxToILetterExamples()
    ensures ColIdxToI("A") == Ok(0)
    ensures ColIdxToI("Z") == Ok(25)
    ensures ColIdxToI("AA") == Ok(26)
    ensures ColIdxToI("AZ") == Ok(51)
  {
    assert ColIdxToI("A") == Ok(0) by {
      assert LettersValue("A") == 1;
      ColIdxToILetters("A");
    }
    assert ColIdxToI("Z") == Ok(25) by {
      assert LettersValue("Z") == 26;
      ColIdxToILetters("Z");
    }
    assert ColIdxToI("AA") == Ok(26) by {
      assert "AA"[1..] == "A";
      assert LettersValue("AA") == 27;
      ColIdxToILetters("AA");
    }
    assert ColIdxToI("AZ") == Ok(51) by {
      assert "AZ"[1..] == "Z";
      assert LettersValue("AZ") == 52;
      ColIdxToILetters("AZ");
    }
  }

  /** A lower-case label reads like its upper-case form. */
  lemma ColIdxToILowerExample()
    ensures ColIdxToI("az") == Ok(51)
  {
    assert ColIdxToI("AZ") == Ok(51) by {
      assert "AZ"[1..] == "Z";
      assert LettersValue("AZ") == 52;
      ColIdxToILetters("AZ");
    }
    assert ToUpper("az") == "AZ";
    ColIdxToICaseInsensitive("az");
  }

  /** A numeral is a column index as it stands. */
  lemma ColIdxToINumericExample()
    ensures ColIdxToI("5") == Ok(5)
  {
    assert IsDecimal("5") by {
      assert Unsigned("5") == "5";
    }
    ColIdxToINumeric("5");
    assert "5"[..0] == [];
    assert DigitsValue("5") == 5;
  }

  /** A label mixing letters and digits names its first non-letter. */
  lemma ColIdxToIMixedExample()
    ensures ColIdxToI("A1") == Err(NotAlphabet('1'))
  {
    assert ToUpper("A1") == "A1";
    assert !IsDecimal("A1") by {
      assert Unsigned("A1") == "A1";
      assert !IsDigit("A1"[0]);
    }
    AtoiToUpper("A1");
    assert "A1"[1..] == "1";
    assert FirstNonLetter("1") == Some('1');
    assert FirstNonLetter("A1") == Some('1');
  }

  // ---------------------------------------------------------------------
  // The -b option
  // ---------------------------------------------------------------------

  /** `optToCellPos(opt)`: "" is the origin; otherwise `opt` must split on
      ',' into a column label and a one-based row number, and the row is
      made zero-based. Errors of either parse are passed on unchanged. */
  function OptToCellPos(opt: string): (r: Result<CellPos>)
    requires IsAscii(opt)
    ensures opt == "" ==> r == Ok(CellPos(0, 0))
    ensures r.Err? ==> opt != "" && (r.error.InvalidOption? ==> r.error.opt == opt)
  {
    if opt == "" then Ok(CellPos(0, 0))
    else
      var parts := Split(opt, ",");
      if |parts| != 2 then Err(InvalidOption(opt))
      else
        assert IsAscii(parts[0]) by {
          JoinSplit(opt, ",");
          assert opt == parts[0] + "," + parts[1] by {
            assert parts[1..] == [parts[1]];
          }
          assert forall i :: 0 <= i < |parts[0]| ==> parts[0][i] == opt[i];
        }
        match ColIdxToI(parts[0])
        case Err(e) => Err(e)
        case Ok(col) =>
          match Atoi(parts[1])
          case Err(e) => Err(e)
          case Ok(row) => Ok(CellPos(col, row - 1))
  }

  /** The empty option is the origin, and a non-empty option with a comma
      count other than one is rejected as invalid. */
  lemma OptToCellPosShape(opt: string)
    requires IsAscii(opt)
    ensures opt == "" ==> OptToCellPos(opt) == Ok(CellPos(0, 0))
    ensures opt != "" && multiset(opt)[','] != 1 ==> OptToCellPos(opt) == Err(InvalidOption(opt))
  {
    SplitCharCount(opt, ',');
  }

  /** With exactly one comma, the option is the column label before it and
      the one-based row after it; the first failing parse is reported. */
  lemma OptToCellPosParts(col: string, row: string)
    requires IsAscii(col) && IsAscii(row)
    requires ',' !in col && ',' !in row
    ensures IsAscii(col + "," + row)
    ensures OptToCellPos(col + "," + row) ==
      match ColIdxToI(col)
      case Err(e) => Err(e)
      case Ok(c) =>
        match Atoi(row)
        case Err(e) => Err(e)
        case Ok(n) => Ok(CellPos(c, n - 1))
  {
    SplitCharAt(col, ',', row);
    SplitCharAbsent(row, ',');
    assert col + "," + row == col + [','] + row;
  }

  /** Writing a position back as `label,row` with a one-based row and
      parsing it gives the position again. */
  lemma OptToCellPosRoundTrip(p: CellPos)
    requires p.column >= 0
    ensures IsAscii(ColumnLabel(p.column) + "," + Itoa(p.row + 1))
    ensures OptToCellPos(ColumnLabel(p.column) + "," + Itoa(p.row + 1)) == Ok(p)
  {
    var token := ColumnLabel(p.column);
    var num := Itoa(p.row + 1);
    ColIdxToIColumnLabel(p.column);
    AtoiItoa(p.row + 1);
    assert ',' !in token;
    assert IsAscii(num) && ',' !in num by {
      assert forall i :: 0 <= i < |num| ==> num[i] == '-' || IsDigit(num[i]);
    }
    OptToCellPosParts(token, num);
  }

  /** "B,3" is column 1, row 2 (zero-based). */
  lemma OptToCellPosExample()
    ensures OptToCellPos("B,3") == Ok(CellPos(1, 2))
  {
    assert ColIdxToI("B") == Ok(1) by {
      assert LettersValue("B") == 2;
      ColIdxToILetters("B");
    }
    assert Atoi("3") == Ok(3) by {
      assert Unsigned("3") == "3" && "3"[..0] == [];
    }
    assert "B,3" == "B" + "," + "3";
    OptToCellPosParts("B", "3");
  }

  /** A row of 0 is accepted and gives row -1: the source does not check
      that the row is positive. */
  lemma OptToCellPosRowZero()
    ensures OptToCellPos("A,0") == Ok(CellPos(0, -1))
  {
    assert ColIdxToI("A") == Ok(0) by {
      assert LettersValue("A") == 1;
      ColIdxToILetters("A");
    }
    assert Atoi("0") == Ok(0) by {
      assert Unsigned("0") == "0" && "0"[..0] == [];
    }
    assert "A,0" == "A" + "," + "0";
    OptToCellPosParts("A", "0");
  }

  /** An option without a comma is invalid. */
  lemma OptToCellPosNoComma()
    ensures OptToCellPos("B") == Err(InvalidOption("B"))
  {
    assert multiset("B")[','] == 0;
    OptToCellPosShape("B");
  }
}

=== FILE: go_strings.dfy ===
/** The parts of Go's `strings` and `strconv` packages that `xl` relies on,
stated on Dafny strings (`seq<char>`, one character per byte for ASCII input).

- `Split` and `Join` follow `strings.Split` and `strings.Join` for a non-empty
  separator: the input is cut at every leftmost, non-overlapping occurrence.
- `ToUpper` follows `strings.ToUpper` on ASCII text.
- `Atoi` follows `strconv.Atoi` on inputs that fit a machine integer:
  an optional sign and then at least one decimal digit.
 */
module GoStrings {
  import opened Results

  // ---------------------------------------------------------------------
  // Searching, splitting and joining
  // ---------------------------------------------------------------------

  /** Whether `sep` occurs in `s` starting at position `i`. */
  predicate SepAt(s: string, sep: string, i: int)
  {
    0 <= i && i + |sep| <= |s| && s[i..i + |sep|] == sep
  }

  /** Whether `sep` occurs anywhere in `s`. */
  predicate Contains(s: string, sep: string)
  {
    exists i :: 0 <= i <= |s| && SepAt(s, sep, i)
  }

  /** The leftmost occurrence of `sep` in `s` at or after `from`, or -1 when
      there is none (`strings.Index` applied to `s[from:]`). */
  function IndexFrom(s: string, sep: string, from: nat): (r: int)
    requires |sep| > 0 && from <= |s|
    ensures r == -1 || (from <= r && SepAt(s, sep, r))
    ensures forall j :: from <= j && (r == -1 || j < r) ==> !SepAt(s, sep, j)
    decreases |s| - from
  {
    if from + |sep| > |s| then -1
    else if s[from..from + |sep|] == sep then from
    else IndexFrom(s, sep, from + 1)
  }

  /** `strings.Split(s, sep)` for a non-empty `sep`: the pieces of `s`
      between the leftmost non-overlapping occurrences of `sep`. */
  function Split(s: string, sep: string): (r: seq<string>)
    requires |sep| > 0
    ensures |r| >= 1
    decreases |s|
  {
    var i := IndexFrom(s, sep, 0);
    if i < 0 then [s] else [s[..i]] + Split(s[i + |sep|..], sep)
  }

  /** `strings.Join(fields, sep)`: the fields with `sep` between neighbours. */
  function Join(fields: seq<string>, sep: string): string
    decreases |fields|
  {
    if |fields| == 0 then ""
    else if |fields| == 1 then fields[0]
    else fields[0] + sep + Join(fields[1..], sep)
  }

  /** No piece that `Split` produces contains the separator. */
  lemma {:induction false} SplitPiecesAvoidSep(s: string, sep: string)
    requires |sep| > 0
    ensures forall k :: 0 <= k < |Split(s, sep)| ==> !Contains(Split(s, sep)[k], sep)
    decreases |s|
  {
    var i := IndexFrom(s, sep, 0);
    if i < 0 {
      assert Split(s, sep) == [s];
    } else {
      var head := s[..i];
      var rest := s[i + |sep|..];
      SplitPiecesAvoidSep(rest, sep);
      forall j | SepAt(head, sep, j)
        ensures false
      {
        assert head[j..j + |sep|] == s[j..j + |sep|];
        assert SepAt(s, sep, j);
      }
      assert Split(s, sep) == [head] + Split(rest, sep);
    }
  }

  /** Joining the pieces of a split with the same separator gives back the
      original text: `strings.Join(strings.Split(s, sep), sep) == s`. */
  lemma {:induction false} JoinSplit(s: string, sep: string)
    requires |sep| > 0
    ensures Join(Split(s, sep), sep) == s
    decreases |s|
  {
    var i := IndexFrom(s, sep, 0);
    if i >= 0 {
      var head := s[..i];
      var rest := s[i + |sep|..];
      var tail := Split(rest, sep);
      assert Split(s, sep) == [head] + tail;
      JoinSplit(rest, sep);
      assert Join([head] + tail, sep) == head + sep + Join(tail, sep) by {
        assert ([head] + tail)[1..] == tail;
      }
      assert s[i..i + |sep|] == sep;
      assert s == head + s[i..i + |sep|] + rest;
    }
  }

  /** Splitting on a one-character separator gives one more piece than the
      number of times that character occurs. */
  lemma {:induction false} SplitCharCount(s: string, c: char)
    ensures |Split(s, [c])| == multiset(s)[c] + 1
    decreases |s|
  {
    var i := IndexFrom(s, [c], 0);
    if i < 0 {
      forall j | 0 <= j < |s|
        ensures s[j] != c
      {
        if s[j] == c {
          assert s[j..j + 1] == [c];
          assert SepAt(s, [c], j);
        }
      }
      assert multiset(s)[c] == 0;
    } else {
      var rest := s[i + 1..];
      SplitCharCount(rest, c);
      forall j | 0 <= j < i
        ensures s[j] != c
      {
        if s[j] == c {
          assert s[j..j + 1] == [c];
          assert SepAt(s, [c], j);
        }
      }
      assert s[i..i + 1] == [c];
      assert multiset(s[..i])[c] == 0;
      assert s == s[..i] + [c] + rest;
      assert multiset(s) == multiset(s[..i]) + multiset([c]) + multiset(rest);
    }
  }

  /** Splitting `a + c + b` on `c`, where `a` has no `c`, yields `a` followed
      by the pieces of `b`. */
  lemma SplitCharAt(a: string, c: char, b: string)
    requires c !in a
    ensures Split(a + [c] + b, [c]) == [a] + Split(b, [c])
  {
    var s := a + [c] + b;
    assert s[|a|..|a| + 1] == [c];
    assert SepAt(s, [c], |a|);
    forall j | 0 <= j < |a|
      ensures !SepAt(s, [c], j)
    {
      assert s[j..j + 1] == [a[j]];
    }
    assert IndexFrom(s, [c], 0) == |a|;
    assert s[..|a|] == a;
    assert s[|a| + 1..] == b;
  }

  /** A text that does not contain the one-character separator splits into
      itself alone. */
  lemma SplitCharAbsent(s: string, c: char)
    requires c !in s
    ensures Split(s, [c]) == [s]
  {
    forall j | 0 <= j < |s|
      ensures !SepAt(s, [c], j)
    {
      assert s[j..j + 1] == [s[j]];
    }
    assert IndexFrom(s, [c], 0) == -1;
  }

  // ---------------------------------------------------------------------
  // Case mapping
  // ---------------------------------------------------------------------

  predicate IsAscii(s: string)
  {
    forall i :: 0 <= i < |s| ==> s[i] as int < 128
  }

  predicate IsUpperLetter(c: char)
  {
    'A' <= c <= 'Z'
  }

  predicate IsLowerLetter(c: char)
  {
    'a' <= c <= 'z'
  }

  function UpperChar(c: char): char
  {
    if IsLowerLetter(c) then (c as int - 'a' as int + 'A' as int) as char else c
  }

  function LowerChar(c: char): char
  {
    if IsUpperLetter(c) then (c as int - 'A' as int + 'a' as int) as char else c
  }

  /** `strings.ToUpper` on ASCII text. */
  function ToUpper(s: string): string
  {
    seq(|s|, i requires 0 <= i < |s| => UpperChar(s[i]))
  }

  /** `strings.ToLower` on ASCII text. */
  function ToLower(s: string): string
  {
    seq(|s|, i requires 0 <= i < |s| => LowerChar(s[i]))
  }

  /** Upper-casing forgets the case of letters and nothing else: it is
      idempotent, undoes lower-casing, and fixes every character that is
      not a lower-case letter. */
  lemma UpperCaseFacts(s: string)
    ensures ToUpper(ToUpper(s)) == ToUpper(s)
    ensures ToUpper(ToLower(s)) == ToUpper(s)
    ensures (forall i :: 0 <= i < |s| ==> !IsLowerLetter(s[i])) ==> ToUpper(s) == s
    ensures IsAscii(s) ==> IsAscii(ToUpper(s))
  {
  }

  // ---------------------------------------------------------------------
  // Decimal integers
  // ---------------------------------------------------------------------

  predicate IsDigit(c: char)
  {
    '0' <= c <= '9'
  }

  predicate AllDigits(s: string)
  {
    forall i :: 0 <= i < |s| ==> IsDigit(s[i])
  }

  /** The value of a string of decimal digits, most significant first. */
  function DigitsValue(s: string): nat
    requires AllDigits(s)
    decreases |s|
  {
    if s == [] then 0
    else 10 * DigitsValue(s[..|s| - 1]) + (s[|s| - 1] as int - '0' as int)
  }

  /** Whether `s` starts with a sign character. */
  predicate HasSign(s: string)
  {
    |s| > 0 && (s[0] == '+' || s[0] == '-')
  }

  /** The digits part of a numeral: `s` without its sign character. */
  function Unsigned(s: string): string
  {
    if HasSign(s) then s[1..] else s
  }

  /** The syntax `strconv.Atoi` accepts: an optional sign, then one or more
      decimal digits and nothing else. */
  predicate IsDecimal(s: string)
  {
    |Unsigned(s)| > 0 && AllDigits(Unsigned(s))
  }

  /** `strconv.Atoi(s)`. */
  function Atoi(s: string): Result<int>
  {
    if !IsDecimal(s) then Err(AtoiSyntax(s))
    else
      var magnitude: int := DigitsValue(Unsigned(s));
      Ok(if s[0] == '-' then -magnitude else magnitude)
  }

  function DigitChar(d: nat): char
    requires d < 10
  {
    ('0' as int + d) as char
  }

  /** The decimal digits of `n`, most significant first, with no leading zero. */
  function Digits(n: nat): (r: string)
    ensures |r| > 0 && AllDigits(r)
    decreases n
  {
    if n < 10 then [DigitChar(n)] else Digits(n / 10) + [DigitChar(n % 10)]
  }

  /** `strconv.Itoa(n)`: the decimal numeral of `n`. */
  function Itoa(n: int): (r: string)
  {
    if n < 0 then "-" + Digits(-n) else Digits(n)
  }

  lemma {:induction false} DigitsValueOfDigits(n: nat)
    ensures DigitsValue(Digits(n)) == n
    decreases n
  {
    if n >= 10 {
      DigitsValueOfDigits(n / 10);
      var s := Digits(n);
      assert s[..|s| - 1] == Digits(n / 10);
    }
  }

  /** `strconv.Atoi` reads back every numeral `strconv.Itoa` writes. */
  lemma AtoiItoa(n: int)
    ensures IsDecimal(Itoa(n))
    ensures Atoi(Itoa(n)) == Ok(n)
  {
    if n < 0 {
      DigitsValueOfDigits(-n);
      assert Unsigned(Itoa(n)) == Digits(-n);
    } else {
      DigitsValueOfDigits(n);
      assert Unsigned(Itoa(n)) == Digits(n);
    }
  }

  /** Upper-casing does not change whether a text is a decimal numeral nor
      the number it denotes. */
  lemma AtoiToUpper(s: string)
    ensures Atoi(ToUpper(s)) == (if IsDecimal(s) then Atoi(s) else Err(AtoiSyntax(ToUpper(s))))
  {
    var u := ToUpper(s);
    var us := Unsigned(s);
    assert HasSign(u) == HasSign(s);
    assert Unsigned(u) == ToUpper(us);
    assert AllDigits(ToUpper(us)) == AllDigits(us) by {
      assert forall i :: 0 <= i < |us| ==> (IsDigit(ToUpper(us)[i]) <==> IsDigit(us[i]));
    }
    if AllDigits(us) {
      assert ToUpper(us) == us;
    }
  }
}

=== FILE: results.dfy ===
/** Failure-carrying values shared by the model of the `xl` tool.

Every error the tool can report becomes a constructor of `Error`; operations
that can fail return a `Result`, and lookups that may come back empty an
`Option`.
 */
module Results {

  /** The errors `xl` reports before it exits with status 1. */
  datatype Error =
    /** the `-b` option did not split into exactly two parts on ',' */
    | InvalidOption(opt: string)
    /** a column label that is not a number holds a character outside A-Z */
    | NotAlphabet(ch: char)
    /** `strconv.Atoi` rejected its input as malformed */
    | AtoiSyntax(input: string)
    /** the sheet requested with `-S` is not in the workbook */
    | NoSuchSheet(name: string)

  datatype Option<+T> = None | Some(value: T)

  datatype Result<+T> = Ok(value: T) | Err(error: Error)
}

=== FILE: transpose.dfy ===
/** The grid logic of `xl`: exporting a sheet as separator-joined lines
(`excelToStdout`) and importing lines into a sheet (`StdinToExcel`), without
the file and stream I/O around them.

A sheet is its rows of rendered cell text, `seq<seq<string>>`. Export reads
it from the base position on, treating an empty cell as the end of a row and
a row without fields as the end of the sheet. Import pads the sheet with one
empty row per base row and then writes field i of line k into cell
(base row + k, base column + i), creating rows and cells as it goes.
 */
module Transpose {
  import opened GoStrings
  import opened CellPosition

  type Row = seq<string>
  type Grid = seq<Row>

  function Max(a: int, b: int): int
  {
    if a < b then b else a
  }

  /** How many leading rows or cells export skips for base index `k`: it
      skips the indices below `k`, so a negative `k` skips nothing. */
  function Skip(k: int): nat
  {
    if k < 0 then 0 else k
  }

  /** `s` without its first `n` elements; nothing is left when `n` exceeds
      its length. */
  function Drop<T>(s: seq<T>, n: nat): (r: seq<T>)
    ensures |r| == Max(0, |s| - n)
    ensures forall i :: 0 <= i < |r| ==> r[i] == s[n + i]
  {
    if n <= |s| then s[n..] else []
  }

  // ---------------------------------------------------------------------
  // Export
  // ---------------------------------------------------------------------

  /** The longest run of non-empty cells at the front of `cells`: the
      fields of a row, since an empty cell ends it. */
  function LeadingFields(cells: seq<string>): (r: seq<string>)
    ensures r <= cells
    ensures forall i :: 0 <= i < |r| ==> r[i] != ""
    ensures |r| < |cells| ==> cells[|r|] == ""
    decreases |cells|
  {
    if cells == [] || cells[0] == "" then [] else [cells[0]] + LeadingFields(cells[1..])
  }

  /** The fields export takes from one row: the cells before the base
      column are skipped, then fields run up to the first empty cell. */
  function RowFields(row: Row, column: int): seq<string>
  {
    LeadingFields(Drop(row, Skip(column)))
  }

  /** The lines exported from `rows` (the rows from the base row on): one
      joined line per row until the first row that yields no field. */
  function ExportRows(rows: Grid, column: int, sep: string): (out: seq<string>)
    ensures |out| <= |rows|
    ensures forall k :: 0 <= k < |out| ==>
      RowFields(rows[k], column) != [] && out[k] == Join(RowFields(rows[k], column), sep)
    ensures |out| < |rows| ==> RowFields(rows[|out|], column) == []
    decreases |rows|
  {
    if rows == [] then []
    else
      var fields := RowFields(rows[0], column);
      if fields == [] then [] else [Join(fields, sep)] + ExportRows(rows[1..], column, sep)
  }

  /** The lines `excelToStdout` prints for a sheet, in row order. */
  function Export(sheet: Grid, base: CellPos, sep: string): (out: seq<string>)
    ensures |out| <= Max(0, |sheet| - Skip(base.row))
    ensures forall k :: 0 <= k < |out| ==>
      Skip(base.row) + k < |sheet| && RowFields(sheet[Skip(base.row) + k], base.column) != []
      && out[k] == Join(RowFields(sheet[Skip(base.row) + k], base.column), sep)
    ensures Skip(base.row) + |out| < |sheet| ==> RowFields(sheet[Skip(base.row) + |out|], base.column) == []
  {
    var rows := Drop(sheet, Skip(base.row));
    var out := ExportRows(rows, base.column, sep);
    assert forall k :: 0 <= k < |rows| ==> rows[k] == sheet[Skip(base.row) + k];
    out
  }

  /** Export stops at the first retained row without fields: no row after
      it contributes a line, whatever it holds. */
  lemma ExportStopsAtEmptyRow(sheet: Grid, base: CellPos, sep: string, r: int)
    requires Skip(base.row) <= r < |sheet|
    requires RowFields(sheet[r], base.column) == []
    ensures |Export(sheet, base, sep)| <= r - Skip(base.row)
    ensures Export(sheet, base, sep) == Export(sheet[..r], base, sep)
  {
    var lo := Skip(base.row);
    var rows := Drop(sheet, lo);
    assert Drop(sheet[..r], lo) == rows[..r - lo];
    assert rows[r - lo] == sheet[r];
    ExportRowsPrefix(rows, r - lo, base.column, sep);
    assert Export(sheet, base, sep) == ExportRows(rows, base.column, sep);
    assert Export(sheet[..r], base, sep) == ExportRows(rows[..r - lo], base.column, sep);
  }

  /** Cutting the rows just before a row without fields does not change
      what is exported. */
  lemma {:induction false} ExportRowsPrefix(rows: Grid, n: nat, column: int, sep: string)
    requires n < |rows| && RowFields(rows[n], column) == []
    ensures ExportRows(rows, column, sep) == ExportRows(rows[..n], column, sep)
    decreases n
  {
    if n > 0 && RowFields(rows[0], column) != [] {
      assert rows[..n][1..] == rows[1..][..n - 1];
      ExportRowsPrefix(rows[1..], n - 1, column, sep);
    }
  }

  /** The example of a sheet with an empty third row: only the first two
      rows are printed. */
  lemma ExportExample()
    ensures Export([["a", "b"], ["c", "d"], [], ["e"]], CellPos(0, 0), " ") == ["a b", "c d"]
  {
    var sheet: Grid := [["a", "b"], ["c", "d"], [], ["e"]];
    assert ["a", "b"][1..] == ["b"] && ["b"][1..] == [];
    assert ["c", "d"][1..] == ["d"] && ["d"][1..] == [];
    assert RowFields(sheet[0], 0) == ["a", "b"];
    assert RowFields(sheet[1], 0) == ["c", "d"];
    assert RowFields(sheet[2], 0) == [];
    assert Join(["a", "b"], " ") == "a b";
    assert Join(["c", "d"], " ") == "c d";
    var out := Export(sheet, CellPos(0, 0), " ");
    assert |out| == 2;
  }

  // ---------------------------------------------------------------------
  // Import
  // ---------------------------------------------------------------------

  /** The row after `cell.Value = v` on cell `j`, once `row.AddCell` has
      appended empty cells until the row reaches that index. */
  function SetCell(row: Row, j: nat, v: string): (r: Row)
    ensures |r| == Max(|row|, j + 1)
    ensures r[j] == v
    ensures forall i :: 0 <= i < |r| && i != j ==> r[i] == if i < |row| then row[i] else ""
  {
    if j < |row| then row[j := v] else row + seq(j - |row|, _ => "") + [v]
  }

  /** The row after writing `fields` from column `column` on, field 0
      first. */
  function WriteFields(row: Row, column: nat, fields: seq<string>): Row
    decreases |fields|
  {
    if fields == [] then row
    else WriteFields(SetCell(row, column, fields[0]), column + 1, fields[1..])
  }

  /** Whether `row` holds `fields` in consecutive cells from `column` on. */
  predicate FieldsAt(row: Row, column: nat, fields: seq<string>)
  {
    forall i :: 0 <= i < |fields| ==> column + i < |row| && row[column + i] == fields[i]
  }

  /** Whether `after` is as long as the longer of `before` and the cells up
      to the last of `n` fields written from `column` on. */
  predicate GrowsTo(before: Row, after: Row, column: nat, n: nat)
  {
    |after| == Max(|before|, column + n)
  }

  /** Whether every cell of `after` outside the columns [column, column + n)
      is the cell of `before` at that index, or "" where `before` had none. */
  predicate KeepsOtherCells(before: Row, after: Row, column: nat, n: nat)
  {
    forall j :: 0 <= j < |after| && !(column <= j < column + n) ==>
      after[j] == if j < |before| then before[j] else ""
  }

  /** Writing fields puts field i in cell `column + i`, keeps every other
      existing cell, pads with "" the cells it creates before `column`, and
      grows the row no further than the last field. */
  lemma {:induction false} WriteFieldsContents(row: Row, column: nat, fields: seq<string>)
    ensures |WriteFields(row, column, fields)| == if fields == [] then |row| else Max(|row|, column + |fields|)
    ensures FieldsAt(WriteFields(row, column, fields), column, fields)
    ensures KeepsOtherCells(row, WriteFields(row, column, fields), column, |fields|)
    decreases |fields|
  {
    if fields != [] {
      var row' := SetCell(row, column, fields[0]);
      WriteFieldsContents(row', column + 1, fields[1..]);
      var r := WriteFields(row, column, fields);
      assert r == WriteFields(row', column + 1, fields[1..]);
      assert |row'| >= column + 1;
      assert column + |fields| <= |r| by {
        if |fields| == 1 {
          assert fields[1..] == [];
        }
      }
      forall i | 0 <= i < |fields|
        ensures r[column + i] == fields[i]
      {
        if i > 0 {
          assert fields[1..][i - 1] == fields[i];
          assert r[column + 1 + (i - 1)] == fields[1..][i - 1];
        }
      }
      forall j | 0 <= j < |r| && !(column <= j < column + |fields|)
        ensures r[j] == if j < |row| then row[j] else ""
      {
        assert r[j] == if j < |row'| then row'[j] else "";
      }
    }
  }

  /** The row that a line finds at row index `rowIdx`: the existing one, or
      a fresh empty row that `sh.AddRow` appends. */
  function RowAt(rows: Grid, rowIdx: nat): Row
  {
    if rowIdx < |rows| then rows[rowIdx] else []
  }

  /** Every entry of a split table holds at least one field, as
      `strings.Split` with a non-empty separator always returns. */
  predicate NoEmptyEntries(table: seq<seq<string>>)
  {
    forall k :: 0 <= k < |table| ==> table[k] != []
  }

  /** The sheet after the scanner loop has written the split lines `table`,
      with the write cursor at `rowIdx`. The source appends a row with
      `sh.AddRow` when the cursor is past the end; since the cursor never
      runs more than one row past the end (`rowIdx <= |rows|`), the appended
      row is the cursor's. */
  function WriteRows(rows: Grid, rowIdx: nat, table: seq<seq<string>>, column: nat): (r: Grid)
    requires rowIdx <= |rows| && NoEmptyEntries(table)
    ensures |r| == Max(|rows|, rowIdx + |table|)
    ensures forall k :: 0 <= k < |table| ==>
      r[rowIdx + k] == WriteFields(RowAt(rows, rowIdx + k), column, table[k])
    ensures forall j :: 0 <= j < |rows| && !(rowIdx <= j < rowIdx + |table|) ==> r[j] == rows[j]
    decreases |table|
  {
    if table == [] then rows
    else
      var next := if rowIdx == |rows| then rows + [WriteFields([], column, table[0])]
                  else rows[rowIdx := WriteFields(rows[rowIdx], column, table[0])];
      assert NoEmptyEntries(table[1..]) by {
        assert forall k :: 0 <= k < |table| - 1 ==> table[1..][k] == table[k + 1];
      }
      var r := WriteRows(next, rowIdx + 1, table[1..], column);
      assert forall k :: 0 <= k < |table| ==>
        r[rowIdx + k] == WriteFields(RowAt(rows, rowIdx + k), column, table[k]) by {
        forall k | 0 <= k < |table|
          ensures r[rowIdx + k] == WriteFields(RowAt(rows, rowIdx + k), column, table[k])
        {
          if k > 0 {
            assert table[1..][k - 1] == table[k];
            assert RowAt(next, rowIdx + 1 + (k - 1)) == RowAt(rows, rowIdx + k);
          }
        }
      }
      assert forall j :: 0 <= j < |rows| && !(rowIdx <= j < rowIdx + |table|) ==> r[j] == rows[j] by {
        forall j | 0 <= j < |rows| && !(rowIdx <= j < rowIdx + |table|)
          ensures r[j] == rows[j]
        {
          assert r[j] == next[j];
        }
      }
      r
  }

  /** Row rowIdx + k after writing: field i of `table[k]` at column + i,
      every other cell as it was or "" where new, and no longer than the
      last field needs. */
  lemma WriteRowsRow(rows: Grid, rowIdx: nat, table: seq<seq<string>>, column: nat, k: nat)
    requires rowIdx <= |rows| && NoEmptyEntries(table) && k < |table|
    ensures rowIdx + k < |WriteRows(rows, rowIdx, table, column)|
    ensures GrowsTo(RowAt(rows, rowIdx + k), WriteRows(rows, rowIdx, table, column)[rowIdx + k], column, |table[k]|)
    ensures FieldsAt(WriteRows(rows, rowIdx, table, column)[rowIdx + k], column, table[k])
    ensures KeepsOtherCells(RowAt(rows, rowIdx + k), WriteRows(rows, rowIdx, table, column)[rowIdx + k], column, |table[k]|)
  {
    WriteFieldsContents(RowAt(rows, rowIdx + k), column, table[k]);
  }

  /** Each input line split on the separator, as the scanner loop splits
      every line it reads. */
  function SplitLines(lines: seq<string>, sep: string): (table: seq<seq<string>>)
    requires |sep| > 0
    ensures |table| == |lines|
    ensures NoEmptyEntries(table)
    decreases |lines|
  {
    if lines == [] then [] else [Split(lines[0], sep)] + SplitLines(lines[1..], sep)
  }

  /** Entry k of the split lines is line k split on the separator. */
  lemma {:induction false} SplitLinesAt(lines: seq<string>, sep: string, k: nat)
    requires |sep| > 0 && k < |lines|
    ensures SplitLines(lines, sep)[k] == Split(lines[k], sep)
    decreases k
  {
    if k > 0 {
      SplitLinesAt(lines[1..], sep, k - 1);
    }
  }

  /** The rows import starts from: the sheet with `base.row` empty rows
      appended to its end. */
  function Padded(sheet: Grid, base: CellPos): (r: Grid)
    requires base.row >= 0
    ensures |r| == |sheet| + base.row
    ensures forall j :: 0 <= j < |sheet| ==> r[j] == sheet[j]
    ensures forall j :: |sheet| <= j < |r| ==> r[j] == []
  {
    sheet + seq(base.row, _ => [])
  }

  /** The sheet after `StdinToExcel` has appended `base.row` empty rows to
      the end of `sheet` and written every line from the base on. */
  function Import(sheet: Grid, lines: seq<string>, sep: string, base: CellPos): (r: Grid)
    requires |sep| > 0
    requires base.row >= 0 && base.column >= 0
    ensures |r| == Max(|sheet| + base.row, base.row + |lines|)
  {
    WriteRows(Padded(sheet, base), base.row, SplitLines(lines, sep), base.column)
  }

  /** Where import puts things: field i of line k in cell
      (base.row + k, base.column + i), and row base.row + k grows only as far
      as its last field. */
  lemma ImportPlacesFields(sheet: Grid, lines: seq<string>, sep: string, base: CellPos)
    requires |sep| > 0
    requires base.row >= 0 && base.column >= 0
    ensures |Import(sheet, lines, sep, base)| == Max(|sheet| + base.row, base.row + |lines|)
    ensures forall k :: 0 <= k < |lines| ==>
      FieldsAt(Import(sheet, lines, sep, base)[base.row + k], base.column, Split(lines[k], sep))
    ensures forall k :: 0 <= k < |lines| ==>
      GrowsTo(RowAt(Padded(sheet, base), base.row + k), Import(sheet, lines, sep, base)[base.row + k],
              base.column, |Split(lines[k], sep)|)
  {
    var row: nat, column: nat := base.row, base.column;
    var padded := Padded(sheet, base);
    var table := SplitLines(lines, sep);
    var r := WriteRows(padded, row, table, column);
    assert r == Import(sheet, lines, sep, base);
    forall k | 0 <= k < |lines|
      ensures FieldsAt(r[row + k], column, Split(lines[k], sep))
      ensures GrowsTo(RowAt(padded, row + k), r[row + k], column, |Split(lines[k], sep)|)
    {
      SplitLinesAt(lines, sep, k);
      WriteRowsRow(padded, row, table, column, k);
    }
  }

  /** What import leaves alone, row by row: rows it writes no line into are
      the padded sheet's rows, that is, the original rows before the base
      row, and empty rows among those it appended. */
  lemma ImportFrame(sheet: Grid, lines: seq<string>, sep: string, base: CellPos)
    requires |sep| > 0
    requires base.row >= 0 && base.column >= 0
    ensures forall j :: 0 <= j < |Import(sheet, lines, sep, base)| && !(base.row <= j < base.row + |lines|) ==>
      Import(sheet, lines, sep, base)[j] == RowAt(Padded(sheet, base), j)
    ensures forall j :: 0 <= j < |sheet| && j < base.row ==> Import(sheet, lines, sep, base)[j] == sheet[j]
    ensures forall j :: |sheet| <= j < |sheet| + base.row && !(base.row <= j < base.row + |lines|) ==>
      Import(sheet, lines, sep, base)[j] == []
  {
    var row: nat, column: nat := base.row, base.column;
    var padded := Padded(sheet, base);
    var r := WriteRows(padded, row, SplitLines(lines, sep), column);
    assert r == Import(sheet, lines, sep, base);
    assert forall j :: 0 <= j < |sheet| ==> padded[j] == sheet[j];
    assert forall j :: |sheet| <= j < |padded| ==> padded[j] == [];
    forall j | 0 <= j < |r| && !(row <= j < row + |lines|)
      ensures r[j] == RowAt(padded, j)
    {
      assert j < |padded|;
    }
  }

  /** What import leaves alone within a row it writes: a cell outside the
      written fields keeps its old text, or is "" when import had to create
      it. */
  lemma ImportKeepsCells(sheet: Grid, lines: seq<string>, sep: string, base: CellPos)
    requires |sep| > 0
    requires base.row >= 0 && base.column >= 0
    ensures forall k :: 0 <= k < |lines| ==>
      KeepsOtherCells(RowAt(Padded(sheet, base), base.row + k), Import(sheet, lines, sep, base)[base.row + k],
                      base.column, |Split(lines[k], sep)|)
  {
    var row: nat, column: nat := base.row, base.column;
    var padded := Padded(sheet, base);
    var table := SplitLines(lines, sep);
    var r := WriteRows(padded, row, table, column);
    assert r == Import(sheet, lines, sep, base);
    forall k | 0 <= k < |lines|
      ensures KeepsOtherCells(RowAt(padded, row + k), r[row + k], column, |Split(lines[k], sep)|)
    {
      SplitLinesAt(lines, sep, k);
      WriteRowsRow(padded, row, table, column, k);
    }
  }

  /** The row import writes for a line into a fresh sheet: `column` empty
      cells, then the line's fields. */
  function FreshRow(fields: seq<string>, column: nat): Row
  {
    seq(column, _ => "") + fields
  }

  /** Writing into an empty sheet in closed form: `rowIdx` empty rows, then
      one row per entry of `table`, each `column` empty cells followed by
      its fields. */
  lemma WriteRowsFresh(rowIdx: nat, table: seq<seq<string>>, column: nat)
    requires NoEmptyEntries(table)
    ensures var r := WriteRows(seq(rowIdx, _ => []), rowIdx, table, column);
      && |r| == rowIdx + |table|
      && (forall j :: 0 <= j < rowIdx ==> r[j] == [])
      && (forall k :: 0 <= k < |table| ==> r[rowIdx + k] == FreshRow(table[k], column))
  {
    var rows: Grid := seq(rowIdx, _ => []);
    var r := WriteRows(rows, rowIdx, table, column);
    forall k | 0 <= k < |table|
      ensures r[rowIdx + k] == FreshRow(table[k], column)
    {
      WriteRowsRow(rows, rowIdx, table, column, k);
      var want := FreshRow(table[k], column);
      assert |r[rowIdx + k]| == |want|;
      forall c | 0 <= c < |want|
        ensures r[rowIdx + k][c] == want[c]
      {
        if c >= column {
          assert r[rowIdx + k][column + (c - column)] == table[k][c - column];
        }
      }
    }
  }

  /** Import into a fresh, empty sheet in closed form: `base.row` empty rows,
      then one row per line holding `base.column` empty cells and then the
      line's fields. */
  lemma ImportFresh(lines: seq<string>, sep: string, base: CellPos)
    requires |sep| > 0
    requires base.row >= 0 && base.column >= 0
    ensures |Import([], lines, sep, base)| == base.row + |lines|
    ensures forall j :: 0 <= j < base.row ==> Import([], lines, sep, base)[j] == []
    ensures forall k :: 0 <= k < |lines| ==>
      Import([], lines, sep, base)[base.row + k] == FreshRow(Split(lines[k], sep), base.column)
  {
    var table := SplitLines(lines, sep);
    var empty: Grid := seq(base.row, _ => []);
    assert Padded([], base) == empty;
    var r := WriteRows(empty, base.row, table, base.column);
    assert Import([], lines, sep, base) == r;
    WriteRowsFresh(base.row, table, base.column);
    forall k | 0 <= k < |lines|
      ensures r[base.row + k] == FreshRow(Split(lines[k], sep), base.column)
    {
      SplitLinesAt(lines, sep, k);
    }
  }

  /** Splitting "a b" on a space gives its two one-letter fields. */
  lemma SplitPair(a: char, b: char)
    requires a != ' ' && b != ' '
    ensures Split([a, ' ', b], " ") == [[a], [b]]
  {
    assert [a, ' ', b] == [a] + [' '] + [b];
    SplitCharAt([a], ' ', [b]);
    SplitCharAbsent([b], ' ');
  }

  /** The example of two lines imported at the origin. */
  lemma ImportExample()
    ensures Import([], ["x y", "z w"], " ", CellPos(0, 0)) == [["x", "y"], ["z", "w"]]
  {
    var lines := ["x y", "z w"];
    SplitPair('x', 'y');
    SplitPair('z', 'w');
    ImportFresh(lines, " ", CellPos(0, 0));
    var r := Import([], lines, " ", CellPos(0, 0));
    assert |r| == 2;
    assert r[0] == FreshRow(Split(lines[0], " "), 0) == ["x", "y"];
    assert r[1] == FreshRow(Split(lines[1], " "), 0) == ["z", "w"];
  }

  // ---------------------------------------------------------------------
  // Round trip
  // ---------------------------------------------------------------------

  /** Whether a line survives a round trip: it splits into fields none of
      which is empty (an empty cell would end the exported row early). */
  predicate NoEmptyField(line: string, sep: string)
    requires |sep| > 0
  {
    forall i :: 0 <= i < |Split(line, sep)| ==> Split(line, sep)[i] != ""
  }

  /** A run of cells none of which is empty is its own field list. */
  lemma {:induction false} LeadingFieldsAllNonEmpty(cells: seq<string>)
    requires forall i :: 0 <= i < |cells| ==> cells[i] != ""
    ensures LeadingFields(cells) == cells
    decreases |cells|
  {
    if cells != [] {
      LeadingFieldsAllNonEmpty(cells[1..]);
    }
  }

  /** A fresh row written from `column` gives back exactly its fields when
      none of them is empty. */
  lemma FreshRowFields(fields: seq<string>, column: nat)
    requires forall i :: 0 <= i < |fields| ==> fields[i] != ""
    ensures RowFields(FreshRow(fields, column), column) == fields
  {
    assert Drop(FreshRow(fields, column), column) == fields;
    LeadingFieldsAllNonEmpty(fields);
  }

  /** Exporting rows that are fresh rows of split lines, none with an empty
      field, gives back the lines. */
  lemma {:induction false} ExportFreshRows(rows: Grid, lines: seq<string>, sep: string, column: nat)
    requires |sep| > 0 && |rows| == |lines|
    requires forall k :: 0 <= k < |lines| ==> NoEmptyField(lines[k], sep)
    requires forall k :: 0 <= k < |rows| ==> rows[k] == FreshRow(Split(lines[k], sep), column)
    ensures ExportRows(rows, column, sep) == lines
    decreases |rows|
  {
    if rows != [] {
      var fields := Split(lines[0], sep);
      assert RowFields(rows[0], column) == fields by {
        FreshRowFields(fields, column);
      }
      assert Join(fields, sep) == lines[0] by {
        JoinSplit(lines[0], sep);
      }
      ExportFreshRows(rows[1..], lines[1..], sep, column);
      assert ExportRows(rows, column, sep) == [lines[0]] + lines[1..];
    }
  }

  /** Importing lines into a fresh, empty sheet and exporting the result
      with the same separator and base gives back the lines exactly. */
  lemma ImportExportRoundTrip(lines: seq<string>, sep: string, base: CellPos)
    requires |sep| > 0
    requires base.row >= 0 && base.column >= 0
    requires forall k :: 0 <= k < |lines| ==> NoEmptyField(lines[k], sep)
    ensures Export(Import([], lines, sep, base), base, sep) == lines
  {
    var row: nat, column: nat := base.row, base.column;
    var sheet := Import([], lines, sep, base);
    var rows := Drop(sheet, row);
    assert |rows| == |lines| && forall k :: 0 <= k < |rows| ==> rows[k] == FreshRow(Split(lines[k], sep), column) by {
      ImportFresh(lines, sep, base);
      forall k | 0 <= k < |rows|
        ensures rows[k] == FreshRow(Split(lines[k], sep), column)
      {
        assert rows[k] == sheet[row + k];
      }
    }
    ExportFreshRows(rows, lines, sep, column);
  }
}

=== FILE: workbook.dfy ===
/** The workbook around the grid logic: choosing the sheet `-S` names, and
the two directions of `xl` with the file reading and writing taken out.

A workbook is its sheets in order, each with a name and its rows. The xlsx
library's file format, opening and saving are not modelled: export receives
the workbook the file held, and import receives the workbook the file held
(`None` when the output file does not exist yet) and returns the workbook
that would be saved.
 */
module Workbook {
  import opened Results
  import opened GoStrings
  import opened CellPosition
  import opened Transpose

  datatype Sheet = Sheet(name: string, rows: Grid)

  type Book = seq<Sheet>

  /** The index of the first sheet called `name` at or after `from`. */
  function FindSheet(book: Book, name: string, from: nat): (r: Option<nat>)
    requires from <= |book|
    ensures r.Some? ==> from <= r.value < |book| && book[r.value].name == name
    ensures r.Some? ==> forall i :: from <= i < r.value ==> book[i].name != name
    ensures r.None? ==> forall i :: from <= i < |book| ==> book[i].name != name
    decreases |book| - from
  {
    if from == |book| then None
    else if book[from].name == name then Some(from)
    else FindSheet(book, name, from + 1)
  }

  /** The sheet `xl` operates on: the first one when no name is given, and
      otherwise the one with that name, or an error when there is none. The
      source indexes `f.Sheets[0]` before looking at the name, so a workbook
      without sheets is outside what it handles. */
  function SelectSheet(book: Book, name: string): (r: Result<nat>)
    requires |book| > 0
    ensures name == "" ==> r == Ok(0)
    ensures name != "" ==> (r.Ok? <==> exists i :: 0 <= i < |book| && book[i].name == name)
    ensures r.Ok? ==> r.value < |book| && (name != "" ==> book[r.value].name == name)
    ensures r.Err? ==> r.error == NoSuchSheet(name)
  {
    if name == "" then Ok(0)
    else
      match FindSheet(book, name, 0)
      case Some(i) => Ok(i)
      case None => Err(NoSuchSheet(name))
  }

  /** `excelToStdout` on a workbook already read: the lines it prints, or
      the error it returns. */
  function ExcelToStdout(book: Book, sep: string, name: string, base: CellPos): (r: Result<seq<string>>)
    requires |book| > 0
    ensures name == "" ==> r.Ok?
    ensures r.Err? ==>
      && name != "" && r.error == NoSuchSheet(name)
      && forall i :: 0 <= i < |book| ==> book[i].name != name
  {
    match SelectSheet(book, name)
    case Err(e) => Err(e)
    case Ok(i) => Ok(Export(book[i].rows, base, sep))
  }

  /** `StdinToExcel` with the lines already read: a fresh workbook with one
      empty sheet "sheet1" when there is no file (the `-S` name is then not
      used), otherwise the selected sheet of the existing workbook; the
      lines are imported into that sheet. */
  function StdinToExcel(existing: Option<Book>, sep: string, name: string, base: CellPos, lines: seq<string>)
    : (r: Result<Book>)
    requires |sep| > 0
    requires base.row >= 0 && base.column >= 0
    requires existing.Some? ==> |existing.value| > 0
    ensures existing.None? ==> r.Ok? && |r.value| == 1 && r.value[0].name == "sheet1"
    ensures r.Err? ==>
      && existing.Some? && name != "" && r.error == NoSuchSheet(name)
      && forall i :: 0 <= i < |existing.value| ==> existing.value[i].name != name
    ensures r.Ok? && existing.Some? ==> |r.value| == |existing.value|
  {
    match existing
    case None => Ok([Sheet("sheet1", Import([], lines, sep, base))])
    case Some(book) =>
      match SelectSheet(book, name)
      case Err(e) => Err(e)
      case Ok(i) => Ok(book[i := book[i].(rows := Import(book[i].rows, lines, sep, base))])
  }

  /** Import into an existing workbook changes only the rows of the selected
      sheet: the order, the names and every other sheet stay as they were;
      a name that is not in the workbook is an error. */
  lemma StdinToExcelFrame(book: Book, sep: string, name: string, base: CellPos, lines: seq<string>)
    requires |sep| > 0
    requires base.row >= 0 && base.column >= 0
    requires |book| > 0
    ensures var r := StdinToExcel(Some(book), sep, name, base, lines);
      && (r.Err? <==> SelectSheet(book, name).Err?)
      && (r.Ok? ==>
            var i := SelectSheet(book, name).value;
            && |r.value| == |book|
            && (forall j :: 0 <= j < |book| ==> r.value[j].name == book[j].name)
            && (forall j :: 0 <= j < |book| && j != i ==> r.value[j] == book[j])
            && r.value[i].rows == Import(book[i].rows, lines, sep, base))
  {
  }

  /** Import then export through whole workbooks: lines written to a new
      file and read back from its first sheet, or from "sheet1" by name,
      with the same separator and base, come back unchanged, provided no
      line has an empty field. */
  lemma WorkbookRoundTrip(sep: string, base: CellPos, lines: seq<string>, name: string)
    requires |sep| > 0
    requires base.row >= 0 && base.column >= 0
    requires forall k :: 0 <= k < |lines| ==> NoEmptyField(lines[k], sep)
    requires name == "" || name == "sheet1"
    ensures StdinToExcel(None, sep, name, base, lines).Ok?
    ensures ExcelToStdout(StdinToExcel(None, sep, name, base, lines).value, sep, name, base) == Ok(lines)
  {
    var book := StdinToExcel(None, sep, name, base, lines).value;
    ImportExportRoundTrip(lines, sep, base);
    assert SelectSheet(book, name) == Ok(0);
  }

  /** Export from a named sheet that is not in the workbook fails and names
      the sheet, and from a named sheet that is there it succeeds and reads
      that sheet; with no name it reads the first sheet. */
  lemma ExcelToStdoutSheetChoice(book: Book, sep: string, name: string, base: CellPos)
    requires |book| > 0
    ensures name == "" ==> ExcelToStdout(book, sep, name, base) == Ok(Export(book[0].rows, base, sep))
    ensures name != "" && (forall i :: 0 <= i < |book| ==> book[i].name != name) ==>
      ExcelToStdout(book, sep, name, base) == Err(NoSuchSheet(name))
    ensures name != "" && (exists i :: 0 <= i < |book| && book[i].name == name) ==>
      ExcelToStdout(book, sep, name, base).Ok?
    ensures name != "" && ExcelToStdout(book, sep, name, base).Ok? ==>
      exists i :: 0 <= i < |book| && book[i].name == name
        && ExcelToStdout(book, sep, name, base) == Ok(Export(book[i].rows, base, sep))
  {
  }
}
